=== FILE: README.md ===
# BrainDrive attention panel — threshold classification model

BrainDrive's web panel shows a live "attention" reading (an integer, nominally
0..100, polled once a second) against thresholds the user sets with sliders.
Two React components hold the logic, and this project models it in Dafny:

- `HeadsetAttentionDisplay` (src/SliderNew.js) is the component the
  application mounts. It has two thresholds, `high` and `low`. From them and
  the reading it derives four things: a wave colour (red or blue), a wave
  intensity in [0, 1] (or NaN in the two 0/0 cases), a position for the headset marker, and a base and
  transition image pair. It also draws a 100-cell range strip.
- `AttentionRangeSlider` (src/Slider.js) has three thresholds, `high`,
  `medium` and `low`, and a four-colour first-match-wins classifier. It draws
  a live fill bar and the same 100-cell strip.

Modules:

- `Colours`: the four colour names and their bottom-to-top order.
- `JsNumber`: JavaScript's `/` on integers, including the infinities and NaN
  it gives for a zero divisor, and `Math.max`/`Math.min` against a finite
  bound.
- `Bars`: the 100-cell strip that both components build from their classifier.
- `Slider`: src/Slider.js.
- `SliderNew`: src/SliderNew.js.
- `AttentionDisplay`: the mounted component's state as a reducer over
  discrete events. The events are the ranges fetch completing or failing, an
  attention poll completing or failing, a slider edit, and the ranges post
  completing. After each change, the reducer reruns the position effect.

The model follows the code as written, which disagrees with the comments
and the on-screen text in three places:

- `getPosition` raises the marker by 16 for readings in `[low, high)`, although
  the comment there says "Red range (top)". It centres the marker only once
  the reading has reached both thresholds (the final `else`), where the
  comment says "Out of range". With `low > high` a red reading below `low`
  is lowered instead. So, for `low <= high`, the marker is centred exactly when the wave is red
  (`SliderNew.MarkerCentredIffRedWave`).
- `getColor` compares with `>=` and the legend on screen uses `>`. With
  `high >= medium >= low` and a reading of at least 0, each band is closed
  at its lower threshold and the two disagree exactly on the threshold
  values (`Slider.LegendAgreesOffThresholds`). Out of that range they can
  also agree on a threshold or disagree off one.
- `getActiveWave` returns only red or blue. So the middle band `[low, high)`
  takes the blue intensity formula. That formula is always 1 there when
  `low > 0` (`SliderNew.MiddleBandFullIntensity`); with `low = 0` a reading
  of 0 gives NaN.

For a zero divisor in the intensity, the model does what JavaScript does. A
nonzero numerator gives an infinity, which the clamp sends to 0 or 1. The two
0/0 cases give NaN, which `Math.min`/`Math.max` pass through. The model
returns that NaN explicitly and does not pick a value for it
(`SliderNew.DegenerateThresholdEnds`, `SliderNew.GetWaveIntensity`).

## Model

| member | source | states |
|---|---|---|
| `JsNumber.Divide` | src/SliderNew.js:82-85 | a nonzero divisor gives the exact quotient; a zero divisor gives +Infinity, -Infinity or NaN by the sign of the numerator |
| `JsNumber.AtLeast` | src/SliderNew.js:90 | `Math.max(x, lo)`: NaN and +Infinity stay as they are, values already at least `lo` are unchanged, and -Infinity or a finite value below `lo` becomes `lo` |
| `JsNumber.AtMost` | src/SliderNew.js:90 | `Math.min(x, hi)`: NaN and -Infinity stay as they are, values already at most `hi` are unchanged, and +Infinity or a finite value above `hi` becomes `hi` |
| `JsNumber.Clamp` | src/SliderNew.js:90 | every number except NaN lands in [0, 1]; values inside are kept, +Infinity and values above 1 give 1, -Infinity and values below 0 give 0; NaN survives |
| `Bars.Render` | src/SliderNew.js:183-185 | the strip has exactly 100 cells and cell `i` holds the classifier's value for reading `i + 1` |
| `Slider.HandleSliderChange` | src/Slider.js:36-42 | the edited key takes the new value and the other two keys keep theirs |
| `Slider.LastEditWins` | src/Slider.js:36-42 | two edits of the same key leave the value of the later one |
| `Slider.EditsOfDistinctKeysCommute` | src/Slider.js:36-42 | edits of different keys can be applied in either order with the same result |
| `Slider.GetColor` | src/Slider.js:54-59 | for any thresholds, even out of order, exactly one colour comes out: red iff `v >= high`, else yellow iff `v >= medium`, else green iff `v >= low`, else blue |
| `Slider.GetColorMonotone` | src/Slider.js:54-59 | a higher reading never gets a lower colour (blue < green < yellow < red), for all thresholds |
| `Slider.RankCountsPassedIffOrdered` | src/Slider.js:54-59 | the colour's rank equals the number of thresholds the reading has reached for every reading, if and only if `high >= medium >= low` |
| `Slider.OrderedBands` | src/Slider.js:54-59 | with ordered thresholds the colours are exactly blue `< low`, green `[low, medium)`, yellow `[medium, high)`, red `>= high` |
| `Slider.Legend` | src/Slider.js:123-126 | with ordered thresholds and a reading of at least 0, the legend line that holds is the colour whose rank counts the thresholds the reading is strictly above |
| `Slider.LegendAgreesOffThresholds` | src/Slider.js:123-126 | with ordered thresholds and a reading of at least 0, the on-screen legend names the classifier's colour if and only if the reading is none of the three thresholds |
| `Slider.YellowReachable` | src/Slider.js:55-56 | some reading is yellow if and only if `medium < high` |
| `Slider.GreenReachable` | src/Slider.js:55-57 | some reading is green if and only if `low < medium` and `low < high` |
| `Slider.BlueAndRedAlwaysReachable` | src/Slider.js:54-58 | for any thresholds, some reading is blue and some is red |
| `Slider.RangeBar` | src/Slider.js:107-111 | 100 cells, cell `i` coloured `getColor(i + 1)`, and the colours never step down from left to right, for any thresholds |
| `Slider.DefaultScenarios` | src/Slider.js:54-59 | with thresholds 75, 50 and 25: 80 is red, 60 yellow, 40 green, 10 blue; 75 is already red and 74 still yellow |
| `Slider.LiveBar` | src/Slider.js:74-76 | the fill is `liveAttention` percent wide and painted `getColor(liveAttention)` for any thresholds, so with ordered thresholds its colour's rank is the number of thresholds the reading has reached |
| `Slider.LiveBarMatchesRangeBar` | src/Slider.js:74-76 | for a reading in 1..100 the fill is that many percent wide, has the colour of the strip cell where it ends, and no cell it covers has a higher colour |
| `SliderNew.HandleSliderChange` | src/SliderNew.js:39-45 | the edited key takes the new value and the other key keeps its own |
| `SliderNew.GetPosition` | src/SliderNew.js:56-70 | `x` and rotation are always 0; `y` is +16 iff `v < low`, -16 iff `low <= v < high`, and 0 iff `v >= low` and `v >= high`; the three cases are disjoint and cover every reading |
| `SliderNew.GetActiveWave` | src/SliderNew.js:72-75 | the wave is red iff `v >= high` and blue otherwise; green and yellow never come out |
| `SliderNew.GetActiveWaveMonotone` | src/SliderNew.js:72-75 | a higher reading never turns a red wave blue |
| `SliderNew.MarkerCentredIffRedWave` | src/SliderNew.js:56-75 | with `low <= high`, the marker is centred iff the wave is red, and when it is raised the wave is blue |
| `SliderNew.GetWaveIntensity` | src/SliderNew.js:77-91 | the intensity is NaN exactly in the two 0/0 cases (`v = high = 100`, or `v = low = 0 < high`); otherwise it is a finite number in [0, 1] |
| `SliderNew.RedIntensity` | src/SliderNew.js:81-83 | for `high < 100` and `v >= high` the intensity is `(v - high) / (100 - high)`, unclamped up to 100 and 1 beyond |
| `SliderNew.BlueIntensity` | src/SliderNew.js:84-86 | for `low > 0` and `v < high` the intensity is `v / low`, cut to 0 at or below 0 and to 1 from `low` on |
| `SliderNew.BlueIntensityNegativeLow` | src/SliderNew.js:84-86 | for `low < 0` and `v < high` the intensity is `v / low`, which is 0 from a reading of 0 up and 1 at or below `low` |
| `SliderNew.MiddleBandFullIntensity` | src/SliderNew.js:72-86 | a reading in `[low, high)` with `low > 0` gets the blue wave at intensity exactly 1 |
| `SliderNew.DegenerateThresholdEnds` | src/SliderNew.js:77-91 | with `high = 100` a reading above 100 is red at 1; with `low = 0` a positive reading below `high` is blue at 1 and a negative one at 0; with `high > 100` red readings get 0 |
| `SliderNew.RedIntensityMonotone` | src/SliderNew.js:81-83 | on the red side the intensity never drops as the reading rises |
| `SliderNew.BlueIntensityMonotone` | src/SliderNew.js:84-86 | on the blue side the intensity never drops as the reading rises |
| `SliderNew.BaseImage` | src/SliderNew.js:97-102 | every base picture is a relative `./….png` path |
| `SliderNew.TransitionImage` | src/SliderNew.js:104-109 | each level's transition picture is the next level's base picture, red's being its own |
| `SliderNew.ImageTables` | src/SliderNew.js:97-109 | each level's transition picture is the next level's base picture; only red transitions into its own base; the four base pictures are distinct |
| `SliderNew.GetImageData` | src/SliderNew.js:93-119 | base and transition pictures are the table entries of the active wave, the transition being the next level's base; they coincide iff `v >= high`; the opacity equals the wave intensity, so it is NaN only in the 0/0 cases and otherwise in [0, 1] |
| `SliderNew.RangeBar` | src/SliderNew.js:183-185 | 100 cells, cell `i` showing the wave of reading `i + 1`: a blue run of `min(max(high - 1, 0), 100)` cells followed by a red run |
| `SliderNew.DefaultScenarios` | src/SliderNew.js:56-91 | with thresholds 75 and 25: a reading of 80 is red at 0.2 with the marker centred; 10 is blue at 0.4 with the marker lowered by 16; 40 is blue at 1 with the marker raised by 16 |
| `AttentionDisplay.Mounted` | src/SliderNew.js:5-10 | after mount the ranges are the defaults, the reading is 0 and the marker is lowered, consistent with the reading |
| `AttentionDisplay.Settle` | src/SliderNew.js:34-37 | the position effect keeps the given ranges and reading and puts the marker where that reading puts it under those ranges |
| `AttentionDisplay.Step` | src/SliderNew.js:12-54 | a fetched record replaces the ranges and a polled value replaces the reading; failed fetches and post completions change nothing; an edit sets its key at once and keeps the other; only polls change the reading; only fetches and edits change the ranges; a consistent state stays consistent |
| `AttentionDisplay.Run` | src/SliderNew.js:15-24 | a run of events that ends with a successful poll shows that poll's reading, and one that ends with a successful ranges fetch shows the fetched ranges |
| `AttentionDisplay.RunKeepsConsistent` | src/SliderNew.js:34-37 | after any sequence of events, the marker position is `getPosition(liveAttention)` under the current ranges |
| `AttentionDisplay.RunFromMountConsistent` | src/SliderNew.js:34-37 | the same holds for every event sequence starting from mount |
| `AttentionDisplay.LogOnlyRunChangesNothing` | src/SliderNew.js:17-53 | a sequence made only of failed fetches and post completions leaves the state unchanged |
| `AttentionDisplay.ReadingChangesOnlyByPolls` | src/SliderNew.js:21-29 | without a successful poll the reading stays what it was |
| `AttentionDisplay.KeyKept` | src/SliderNew.js:12-45 | a run with no ranges fetch and no edit of a given slider leaves that threshold unchanged |
| `AttentionDisplay.EditSurvivesPost` | src/SliderNew.js:39-53 | after an edit, any run of polls, failures, post completions and edits of the other slider, in any order, leaves the edited threshold at the edited value |

## Left out

- Network I/O is not modelled. The `axios` calls to `/get_ranges`,
  `/get_attention` and `/update_ranges` appear only as events that complete
  or fail, and `console` logging is dropped.
- Timers are not modelled. The reducer takes the one-second `setInterval`
  poll as a stream of poll events. Clearing the interval on unmount is not
  modelled: the reducer has no unmount event.
- React rendering is not modelled: `useState`/`useEffect`, JSX, Tailwind
  classes and the embedded CSS. Between a render and its effect, the stored
  position can lag the reading. The reducer only shows the state after the
  effect has run.
- The wave animation is not modelled. Its `2 / waveIntensity` duration and
  `waveIntensity * 0.7` opacity (src/SliderNew.js:157-158) are presentation.
- Floating point is simplified. Finite quotients are exact reals, with no
  binary rounding, and the sign of zero is ignored.
- `parseInt` on the slider value is not modelled. An edit carries an integer
  that is already parsed.
- Wholesale replacement of ranges by a fetch is modelled with each
  component's own keys. Extra keys in the server's answer, and missing ones
  (which JavaScript reads as `undefined`), are not modelled.
- Slider.js's own fetch and poll handling is not modelled separately. It is
  the same as in SliderNew.js, which `AttentionDisplay` models.
- Slider.LiveBarMatchesRangeBar: covers readings 1..100 only. A width
  outside 0..100% is a layout matter.
- N3_test.py (MindWave headset callbacks) is hardware I/O and is not part of
  this model. src/App.js only mounts the component and is not part of this
  model either.

=== FILE: bars.dfy ===
/** The "Range Visualization" strip both components draw: one hundred cells,
    cell `i` painted with the class the component's classifier gives to the
    reading `i + 1`. */
module Bars {

  /** Number of cells in the strip. */
  const Cells := 100

  /** `[...Array(100)].map((_, i) => classify(i + 1))`. */
  method Render<T>(classify: int -> T) returns (bar: seq<T>)
    ensures |bar| == Cells
    ensures forall i :: 0 <= i < |bar| ==> bar[i] == classify(i + 1)
  {
    bar := [];
    var i := 0;
    while i < Cells
      invariant 0 <= i <= Cells
      invariant |bar| == i
      invariant forall j :: 0 <= j < i ==> bar[j] == classify(j + 1)
    {
      bar := bar + [classify(i + 1)];
      i := i + 1;
    }
  }
}

=== FILE: colours.dfy ===
/** The four colour names both components share. They are the stems of the
    CSS classes the components emit (`bg-red-500`, `red-bg`, `red-wave`) and the
    keys of the headset image tables. Listed bottom to top. */
module Colours {

  datatype Colour = Blue | Green | Yellow | Red

  /** Place of a colour in the bottom-to-top order blue < green < yellow < red. */
  function Rank(c: Colour): (n: nat)
    ensures n <= 3
    ensures c == Blue <==> n == 0
    ensures c == Red <==> n == 3
  {
    match c
    case Blue => 0
    case Green => 1
    case Yellow => 2
    case Red => 3
  }

  /** The colour one level up; red is the top level and has none above it. */
  function Next(c: Colour): (d: Colour)
    ensures c != Red ==> Rank(d) == Rank(c) + 1
    ensures c == Red ==> d == Red
  {
    match c
    case Blue => Green
    case Green => Yellow
    case Yellow => Red
    case Red => Red
  }
}

=== FILE: display.dfy ===
/** The state the headset display keeps across renders, as a reducer over the
    discrete events that reach it: completion of the startup ranges fetch,
    completion of a one-second attention poll, a slider edit and completion of
    the ranges post. The position effect runs after every change of the
    reading or the ranges, so the reducer applies it as part of each step. */
module AttentionDisplay {
  import opened SliderNew

  datatype State = State(ranges: Ranges, liveAttention: int, position: Position)

  datatype Event =
    | RangesFetched(fetched: Ranges)
    | RangesFetchFailed
    | AttentionPolled(attention: int)
    | AttentionPollFailed
    | SliderEdited(name: Key, value: int)
    | RangesPosted

  /** The displayed position is the one the current reading earns under the
      current ranges. */
  predicate Consistent(s: State)
  {
    s.position == GetPosition(s.ranges, s.liveAttention)
  }

  /** The position effect, run after `ranges` or `liveAttention` changes. */
  function Settle(ranges: Ranges, liveAttention: int): (s: State)
    ensures s.ranges == ranges && s.liveAttention == liveAttention
    ensures Consistent(s)
  {
    State(ranges, liveAttention, GetPosition(ranges, liveAttention))
  }

  /** The state once the component has mounted and its effects have run:
      default ranges, reading 0, marker lowered. */
  function Mounted(): (s: State)
    ensures Consistent(s)
    ensures s.ranges == Default && s.liveAttention == 0
    ensures s.position == Position(0, MaxMove, 0)
  {
    Settle(Default, 0)
  }

  /** One event. A successful fetch replaces the ranges or the reading
      wholesale; an edit replaces one threshold at once, before the post
      completes; failures and the post's completion only log, so they change
      nothing, and a failed post does not undo the edit. */
  function Step(s: State, e: Event): (s': State)
    ensures Consistent(s) ==> Consistent(s')
    ensures e.RangesFetched? ==> s'.ranges == e.fetched && s'.liveAttention == s.liveAttention
    ensures e.AttentionPolled? ==> s'.liveAttention == e.attention && s'.ranges == s.ranges
    ensures e.RangesFetchFailed? || e.AttentionPollFailed? || e.RangesPosted? ==> s' == s
    ensures e.SliderEdited? ==> Get(s'.ranges, e.name) == e.value
    ensures e.SliderEdited? ==> forall k :: k != e.name ==> Get(s'.ranges, k) == Get(s.ranges, k)
    ensures !e.AttentionPolled? ==> s'.liveAttention == s.liveAttention
    ensures !e.RangesFetched? && !e.SliderEdited? ==> s'.ranges == s.ranges
  {
    match e
    case RangesFetched(fetched) => Settle(fetched, s.liveAttention)
    case RangesFetchFailed => s
    case AttentionPolled(attention) => Settle(s.ranges, attention)
    case AttentionPollFailed => s
    case SliderEdited(name, value) => Settle(HandleSliderChange(s.ranges, name, value), s.liveAttention)
    case RangesPosted => s
  }

  /** Events in arrival order. Each fetch or poll replaces its part of the
      state wholesale, so a run that ends with one shows exactly what it
      delivered. */
  function Run(s: State, events: seq<Event>): (r: State)
    ensures events != [] && events[|events| - 1].AttentionPolled?
            ==> r.liveAttention == events[|events| - 1].attention
    ensures events != [] && events[|events| - 1].RangesFetched?
            ==> r.ranges == events[|events| - 1].fetched
    decreases |events|
  {
    if events == [] then s else Run(Step(s, events[0]), events[1..])
  }

  /** After any interleaving of events the marker agrees with the reading
      and the ranges. */
  lemma {:induction false} RunKeepsConsistent(s: State, events: seq<Event>)
    requires Consistent(s)
    ensures Consistent(Run(s, events))
    decreases |events|
  {
    if events != [] {
      RunKeepsConsistent(Step(s, events[0]), events[1..]);
    }
  }

  /** In particular, from mount onwards. */
  lemma {:induction false} RunFromMountConsistent(events: seq<Event>)
    ensures Consistent(Run(Mounted(), events))
  {
    RunKeepsConsistent(Mounted(), events);
  }

  /** An event that only logs. */
  predicate LogOnly(e: Event)
  {
    e.RangesFetchFailed? || e.AttentionPollFailed? || e.RangesPosted?
  }

  /** A run of failures and post completions leaves the state as it was. */
  lemma {:induction false} LogOnlyRunChangesNothing(s: State, events: seq<Event>)
    requires forall i :: 0 <= i < |events| ==> LogOnly(events[i])
    ensures Run(s, events) == s
    decreases |events|
  {
    if events != [] {
      LogOnlyRunChangesNothing(s, events[1..]);
    }
  }

  /** A run without attention polls keeps the reading. */
  lemma {:induction false} ReadingChangesOnlyByPolls(s: State, events: seq<Event>)
    requires forall i :: 0 <= i < |events| ==> !events[i].AttentionPolled?
    ensures Run(s, events).liveAttention == s.liveAttention
    decreases |events|
  {
    if events != [] {
      ReadingChangesOnlyByPolls(Step(s, events[0]), events[1..]);
    }
  }

  /** An event that could overwrite threshold `name`: a successful ranges
      fetch, or another edit of the same slider. */
  predicate Overwrites(e: Event, name: Key)
  {
    e.RangesFetched? || (e.SliderEdited? && e.name == name)
  }

  /** Without a fetch or another edit of the same slider, a threshold keeps
      its value through any run of events. */
  lemma {:induction false} KeyKept(s: State, name: Key, events: seq<Event>)
    requires forall i :: 0 <= i < |events| ==> !Overwrites(events[i], name)
    ensures Get(Run(s, events).ranges, name) == Get(s.ranges, name)
    decreases |events|
  {
    if events != [] {
      KeyKept(Step(s, events[0]), name, events[1..]);
    }
  }

  /** An edit is visible straight away and is never rolled back: polls,
      failures and the post's completion, whatever its outcome and in
      whatever order they arrive, leave the edited value in place until a
      fetch or another edit of the same slider replaces it. */
  lemma EditSurvivesPost(s: State, name: Key, value: int, events: seq<Event>)
    requires forall i :: 0 <= i < |events| ==> !Overwrites(events[i], name)
    ensures Get(Run(s, [SliderEdited(name, value)] + events).ranges, name) == value
  {
    var run := [SliderEdited(name, value)] + events;
    assert run[1..] == events;
    KeyKept(Step(s, run[0]), name, events);
  }
}

=== FILE: jsnumber.dfy ===
/** The part of JavaScript's number semantics the wave intensity relies on:
    division of two integers, which yields an infinity or NaN when the divisor
    is zero, and `Math.max`/`Math.min` against a finite bound, which let NaN
    through. Finite values are exact reals: binary rounding is not modelled. */
module JsNumber {

  datatype Number = Finite(value: real) | PositiveInfinity | NegativeInfinity | NaN

  /** `a / b` on two integer-valued JavaScript numbers. */
  function Divide(a: int, b: int): (q: Number)
    ensures b != 0 ==> q.Finite? && q.value * (b as real) == a as real
    ensures b == 0 ==> (q.NaN? <==> a == 0)
    ensures b == 0 ==> (q.PositiveInfinity? <==> a > 0)
    ensures b == 0 ==> (q.NegativeInfinity? <==> a < 0)
  {
    if b != 0 then Finite(a as real / b as real)
    else if a > 0 then PositiveInfinity
    else if a < 0 then NegativeInfinity
    else NaN
  }

  /** `Math.max(x, lo)` for a finite bound `lo`. */
  function AtLeast(x: Number, lo: real): (r: Number)
    ensures r.NaN? <==> x.NaN?
    ensures r.Finite? ==> r.value >= lo
    ensures x.Finite? && x.value >= lo ==> r == x
    ensures x.NegativeInfinity? || (x.Finite? && x.value < lo) ==> r == Finite(lo)
    ensures x.PositiveInfinity? ==> r == x
  {
    match x
    case Finite(q) => if q >= lo then x else Finite(lo)
    case PositiveInfinity => PositiveInfinity
    case NegativeInfinity => Finite(lo)
    case NaN => NaN
  }

  /** `Math.min(x, hi)` for a finite bound `hi`. */
  function AtMost(x: Number, hi: real): (r: Number)
    ensures r.NaN? <==> x.NaN?
    ensures r.Finite? ==> r.value <= hi
    ensures x.Finite? && x.value <= hi ==> r == x
    ensures x.PositiveInfinity? || (x.Finite? && x.value > hi) ==> r == Finite(hi)
    ensures x.NegativeInfinity? ==> r == x
  {
    match x
    case Finite(q) => if q <= hi then x else Finite(hi)
    case PositiveInfinity => Finite(hi)
    case NegativeInfinity => NegativeInfinity
    case NaN => NaN
  }

  /** `Math.min(Math.max(x, 0), 1)`: every number except NaN lands in [0, 1];
      values already there are kept, the rest go to the nearer end. */
  function Clamp(x: Number): (r: Number)
    ensures r.NaN? <==> x.NaN?
    ensures !x.NaN? ==> r.Finite? && 0.0 <= r.value <= 1.0
    ensures x.Finite? && 0.0 <= x.value <= 1.0 ==> r == x
    ensures x.PositiveInfinity? || (x.Finite? && x.value >= 1.0) ==> r == Finite(1.0)
    ensures x.NegativeInfinity? || (x.Finite? && x.value <= 0.0) ==> r == Finite(0.0)
  {
    AtMost(AtLeast(x, 0.0), 1.0)
  }
}

=== FILE: slider.dfy ===
/** The four-zone range adjuster (`AttentionRangeSlider`, src/Slider.js):
    three thresholds, a first-match-wins colour classifier, the slider edit,
    the live fill bar and the 100-cell range strip. */
module Slider {
  import opened Colours
  import Bars

  /** The names of the three sliders, one per threshold. */
  datatype Key = High | Medium | Low

  /** The component's `ranges` state. */
  datatype Ranges = Ranges(high: int, medium: int, low: int)

  /** The state's initial value, before any fetch succeeds. */
  const Default := Ranges(75, 50, 25)

  /** `ranges[name]`. */
  function Get(r: Ranges, k: Key): int
  {
    match k
    case High => r.high
    case Medium => r.medium
    case Low => r.low
  }

  /** `{...ranges, [name]: value}`: the edited threshold takes the slider's
      value, the other two keep theirs. No ordering is enforced. */
  function HandleSliderChange(r: Ranges, name: Key, value: int): (r': Ranges)
    ensures Get(r', name) == value
    ensures forall k :: k != name ==> Get(r', k) == Get(r, k)
  {
    match name
    case High => r.(high := value)
    case Medium => r.(medium := value)
    case Low => r.(low := value)
  }

  /** Two edits of the same slider: the later one wins. */
  lemma LastEditWins(r: Ranges, name: Key, a: int, b: int)
    ensures HandleSliderChange(HandleSliderChange(r, name, a), name, b)
         == HandleSliderChange(r, name, b)
  {
  }

  /** Edits of two different sliders do not interfere. */
  lemma EditsOfDistinctKeysCommute(r: Ranges, k1: Key, a: int, k2: Key, b: int)
    requires k1 != k2
    ensures HandleSliderChange(HandleSliderChange(r, k1, a), k2, b)
         == HandleSliderChange(HandleSliderChange(r, k2, b), k1, a)
  {
  }

  /** The ordering the slider labels suggest; the code never enforces it. */
  predicate Ordered(r: Ranges)
  {
    r.high >= r.medium >= r.low
  }

  /** `getColor`: the tests run from the top down and the first that holds
      decides, so for any three integers, ordered or not, exactly one colour
      is chosen, each on its own guard. */
  function GetColor(r: Ranges, value: int): (c: Colour)
    ensures c == Red <==> value >= r.high
    ensures c == Yellow <==> value < r.high && value >= r.medium
    ensures c == Green <==> value < r.high && value < r.medium && value >= r.low
    ensures c == Blue <==> value < r.high && value < r.medium && value < r.low
  {
    if value >= r.high then Red
    else if value >= r.medium then Yellow
    else if value >= r.low then Green
    else Blue
  }

  /** A higher reading never gets a lower colour. This holds for every choice
      of thresholds, not only ordered ones: the rank is the largest of three
      indicators that can only switch on as the reading grows. */
  lemma GetColorMonotone(r: Ranges, v1: int, v2: int)
    requires v1 <= v2
    ensures Rank(GetColor(r, v1)) <= Rank(GetColor(r, v2))
  {
  }

  /** How many of the three thresholds the reading has reached. */
  function Passed(r: Ranges, value: int): nat
  {
    (if value >= r.low then 1 else 0)
    + (if value >= r.medium then 1 else 0)
    + (if value >= r.high then 1 else 0)
  }

  /** The colour's rank counts the thresholds reached for every reading
      exactly when the thresholds are ordered; out of order, some reading
      gets a colour above its count. */
  lemma RankCountsPassedIffOrdered(r: Ranges)
    ensures Ordered(r) <==> forall v :: Rank(GetColor(r, v)) == Passed(r, v)
  {
    if !Ordered(r) {
      if r.high < r.medium {
        assert Rank(GetColor(r, r.high)) != Passed(r, r.high);
      } else {
        assert Rank(GetColor(r, r.medium)) != Passed(r, r.medium);
      }
    }
  }

  /** With ordered thresholds the colours are the four half-open bands,
      each closed at its lower threshold. */
  lemma OrderedBands(r: Ranges, v: int)
    requires Ordered(r)
    ensures GetColor(r, v) == Blue <==> v < r.low
    ensures GetColor(r, v) == Green <==> r.low <= v < r.medium
    ensures GetColor(r, v) == Yellow <==> r.medium <= v < r.high
    ensures GetColor(r, v) == Red <==> r.high <= v
  {
  }

  /** The "Current Ranges" legend: A (red) `value > high`, B (yellow)
      `high >= value > medium`, C (green) `medium >= value > low`,
      D (blue) `low >= value >= 0`. */
  function Legend(r: Ranges, c: Colour, value: int): (b: bool)
    ensures Ordered(r) && value >= 0 ==> (b <==> Rank(c) == Exceeded(r, value))
  {
    match c
    case Red => value > r.high
    case Yellow => r.high >= value > r.medium
    case Green => r.medium >= value > r.low
    case Blue => r.low >= value >= 0
  }

  /** How many of the three thresholds the reading is strictly above. */
  function Exceeded(r: Ranges, value: int): nat
  {
    (if value > r.low then 1 else 0)
    + (if value > r.medium then 1 else 0)
    + (if value > r.high then 1 else 0)
  }

  /** The legend and the classifier disagree exactly on the threshold values
      themselves: there the legend puts the reading one band lower. */
  lemma LegendAgreesOffThresholds(r: Ranges, v: int)
    requires Ordered(r) && v >= 0
    ensures Legend(r, GetColor(r, v), v) <==> v != r.low && v != r.medium && v != r.high
  {
  }

  /** Yellow is shown for some reading exactly when medium is below high. */
  lemma YellowReachable(r: Ranges)
    ensures (exists v :: GetColor(r, v) == Yellow) <==> r.medium < r.high
  {
    if r.medium < r.high {
      assert GetColor(r, r.medium) == Yellow;
    }
  }

  /** Green is shown for some reading exactly when low is below both medium
      and high; otherwise an earlier test always fires first. */
  lemma GreenReachable(r: Ranges)
    ensures (exists v :: GetColor(r, v) == Green) <==> r.low < r.medium && r.low < r.high
  {
    if r.low < r.medium && r.low < r.high {
      assert GetColor(r, r.low) == Green;
    }
  }

  /** Blue and red are shown for some reading whatever the thresholds. */
  lemma BlueAndRedAlwaysReachable(r: Ranges)
    ensures exists v :: GetColor(r, v) == Blue
    ensures exists v :: GetColor(r, v) == Red
  {
    var lowest := if r.low <= r.medium && r.low <= r.high then r.low
                  else if r.medium <= r.high then r.medium
                  else r.high;
    assert GetColor(r, lowest - 1) == Blue;
    assert GetColor(r, r.high) == Red;
  }

  /** The classifier on the initial thresholds 75, 50 and 25. */
  lemma DefaultScenarios()
    ensures GetColor(Default, 80) == Red
    ensures GetColor(Default, 60) == Yellow
    ensures GetColor(Default, 40) == Green
    ensures GetColor(Default, 10) == Blue
    ensures GetColor(Default, 75) == Red && GetColor(Default, 74) == Yellow
  {
  }

  /** The live fill bar: `width: liveAttention%`, coloured by `getColor`. */
  datatype Fill = Fill(widthPercent: int, colour: Colour)

  function LiveBar(r: Ranges, liveAttention: int): (f: Fill)
    ensures f.widthPercent == liveAttention
    ensures f.colour == GetColor(r, liveAttention)
    ensures Ordered(r) ==> Rank(f.colour) == Passed(r, liveAttention)
  {
    Fill(liveAttention, GetColor(r, liveAttention))
  }

  /** `bar` is the range strip drawn for thresholds `r`. */
  predicate IsRangeBar(r: Ranges, bar: seq<Colour>)
  {
    |bar| == Bars.Cells && forall i :: 0 <= i < |bar| ==> bar[i] == GetColor(r, i + 1)
  }

  /** The range strip: a hundred cells whose colours never step down from
      left to right, for any thresholds. */
  method RangeBar(r: Ranges) returns (bar: seq<Colour>)
    ensures IsRangeBar(r, bar)
    ensures forall i, j :: 0 <= i <= j < |bar| ==> Rank(bar[i]) <= Rank(bar[j])
  {
    bar := Bars.Render(v => GetColor(r, v));
    forall i, j | 0 <= i <= j < |bar|
      ensures Rank(bar[i]) <= Rank(bar[j])
    {
      GetColorMonotone(r, i + 1, j + 1);
    }
  }

  /** For a reading in 1..100 the fill ends on the strip cell of the same
      reading, takes that cell's colour, and no cell under it has a higher
      colour. */
  lemma LiveBarMatchesRangeBar(r: Ranges, bar: seq<Colour>, v: int)
    requires IsRangeBar(r, bar)
    requires 1 <= v <= Bars.Cells
    ensures LiveBar(r, v).widthPercent == v
    ensures LiveBar(r, v).colour == bar[v - 1]
    ensures forall i :: 0 <= i < v ==> Rank(bar[i]) <= Rank(LiveBar(r, v).colour)
  {
    forall i | 0 <= i < v
      ensures Rank(bar[i]) <= Rank(LiveBar(r, v).colour)
    {
      GetColorMonotone(r, i + 1, v);
    }
  }
}

=== FILE: slider_new.dfy ===
/** The headset display (`HeadsetAttentionDisplay`, src/SliderNew.js), the
    component the application mounts: two thresholds, a two-way wave
    classifier, a clamped wave intensity, a three-way marker position, the
    headset image pair, the slider edit and the 100-cell range strip. */
module SliderNew {
  import opened Colours
  import opened JsNumber
  import Bars

  /** The names of the two sliders. */
  datatype Key = High | Low

  /** The component's `ranges` state. */
  datatype Ranges = Ranges(high: int, low: int)

  /** The state's initial value, before any fetch succeeds. */
  const Default := Ranges(75, 25)

  /** `ranges[name]`. */
  function Get(r: Ranges, k: Key): int
  {
    match k
    case High => r.high
    case Low => r.low
  }

  /** `{...ranges, [name]: value}`: the edited threshold takes the slider's
      value, the other keeps its own. */
  function HandleSliderChange(r: Ranges, name: Key, value: int): (r': Ranges)
    ensures Get(r', name) == value
    ensures forall k :: k != name ==> Get(r', k) == Get(r, k)
  {
    match name
    case High => r.(high := value)
    case Low => r.(low := value)
  }

  /** Side of the square headset container, in pixels. */
  const ContainerSize := 64
  /** How far the marker moves up or down: a quarter of the container. */
  const MaxMove := ContainerSize / 4

  /** Translation and rotation of the headset marker; positive `y` is down. */
  datatype Position = Position(x: int, y: int, rotation: int)

  /** `getPosition`: below `low` the marker drops by `MaxMove`; in
      `[low, high)` it rises by `MaxMove`; anywhere else it stays centred.
      It never moves sideways or turns. */
  function GetPosition(r: Ranges, value: int): (p: Position)
    ensures p.x == 0 && p.rotation == 0
    ensures p.y == MaxMove <==> value < r.low
    ensures p.y == -MaxMove <==> r.low <= value < r.high
    ensures p.y == 0 <==> r.low <= value && r.high <= value
  {
    if value < r.low then Position(0, MaxMove, 0)
    else if value < r.high then Position(0, -MaxMove, 0)
    else Position(0, 0, 0)
  }

  /** `getActiveWave`: red from `high` upwards, blue everywhere else; green
      and yellow never come out. */
  function GetActiveWave(r: Ranges, value: int): (c: Colour)
    ensures c == Red || c == Blue
    ensures c == Red <==> value >= r.high
  {
    if value >= r.high then Red else Blue
  }

  /** A higher reading never turns the wave from red back to blue. */
  lemma GetActiveWaveMonotone(r: Ranges, v1: int, v2: int)
    requires v1 <= v2
    ensures Rank(GetActiveWave(r, v1)) <= Rank(GetActiveWave(r, v2))
  {
  }

  /** With `low <= high` the marker sits centred exactly while the wave is
      red; in the middle band it is raised although the wave is blue. */
  lemma MarkerCentredIffRedWave(r: Ranges, v: int)
    requires r.low <= r.high
    ensures GetPosition(r, v).y == 0 <==> GetActiveWave(r, v) == Red
    ensures GetPosition(r, v).y == -MaxMove ==> GetActiveWave(r, v) == Blue
  {
  }

  /** The intensity is NaN exactly in the two 0/0 cases: reading and `high`
      both 100 on the red side, reading and `low` both 0 on the blue side. */
  predicate Degenerate(r: Ranges, value: int)
  {
    (value == 100 && r.high == 100) || (value == 0 && r.low == 0 && value < r.high)
  }

  /** `getWaveIntensity`: progress from `high` to 100 on the red side, from 0
      to `low` on the blue side (which also covers the middle band), then
      clamped into [0, 1]. A zero divisor gives an infinity, clamped to an
      end, or NaN, which the clamp lets through. */
  function GetWaveIntensity(r: Ranges, value: int): (i: Number)
    ensures i.NaN? <==> Degenerate(r, value)
    ensures !i.NaN? ==> i.Finite? && 0.0 <= i.value <= 1.0
  {
    match GetActiveWave(r, value)
    case Red => Clamp(Divide(value - r.high, 100 - r.high))
    case Blue => Clamp(Divide(value, r.low))
    case _ => Clamp(Finite(0.0))
  }

  /** On the red side with `high < 100`, the intensity is the unclamped
      fraction of the way from `high` to 100, and 1 beyond 100. */
  lemma RedIntensity(r: Ranges, v: int)
    requires r.high < 100 && r.high <= v
    ensures GetWaveIntensity(r, v)
         == Finite(if v >= 100 then 1.0 else (v - r.high) as real / (100 - r.high) as real)
  {
    QuotientRange(v - r.high, 100 - r.high);
  }

  /** On the blue side with `low > 0`, the intensity is `value / low`, cut to
      0 below zero and to 1 from `low` on. */
  lemma BlueIntensity(r: Ranges, v: int)
    requires 0 < r.low && v < r.high
    ensures GetWaveIntensity(r, v)
         == Finite(if v <= 0 then 0.0 else if v >= r.low then 1.0 else v as real / r.low as real)
  {
    QuotientRange(v, r.low);
  }

  /** On the blue side with `low < 0` the divisor is negative, so the
      intensity runs the other way: 0 from a reading of 0 up, `value / low`
      between `low` and 0, and 1 at or below `low`. */
  lemma BlueIntensityNegativeLow(r: Ranges, v: int)
    requires r.low < 0 && v < r.high
    ensures GetWaveIntensity(r, v)
         == Finite(if v >= 0 then 0.0 else if v <= r.low then 1.0 else v as real / r.low as real)
  {
    QuotientRange(v, r.low);
  }

  /** The middle band `[low, high)` is blue and always at full intensity. */
  lemma MiddleBandFullIntensity(r: Ranges, v: int)
    requires 0 < r.low <= v < r.high
    ensures GetActiveWave(r, v) == Blue
    ensures GetWaveIntensity(r, v) == Finite(1.0)
  {
    BlueIntensity(r, v);
  }

  /** Thresholds at or beyond the ends of the scale: with `high == 100` any
      reading above 100 is red at intensity 1; with `low == 0` a positive
      reading below `high` is blue at 1 and a negative one at 0; with
      `high > 100` the red divisor is negative and red readings get 0. */
  lemma DegenerateThresholdEnds(r: Ranges, v: int)
    ensures r.high == 100 && v > 100 ==> GetWaveIntensity(r, v) == Finite(1.0)
    ensures r.low == 0 && 0 < v < r.high ==> GetWaveIntensity(r, v) == Finite(1.0)
    ensures r.low == 0 && v < 0 && v < r.high ==> GetWaveIntensity(r, v) == Finite(0.0)
    ensures r.high > 100 && v >= r.high ==> GetWaveIntensity(r, v) == Finite(0.0)
  {
    if r.high > 100 && v >= r.high {
      QuotientRange(v - r.high, 100 - r.high);
    }
  }

  /** Inside the red side the intensity never drops as the reading rises. */
  lemma RedIntensityMonotone(r: Ranges, v1: int, v2: int)
    requires r.high < 100 && r.high <= v1 <= v2
    ensures GetWaveIntensity(r, v1).value <= GetWaveIntensity(r, v2).value
  {
    RedIntensity(r, v1);
    RedIntensity(r, v2);
    if v2 < 100 {
      FractionMonotone(v1 - r.high, v2 - r.high, 100 - r.high);
    }
  }

  /** Inside the blue side the intensity never drops as the reading rises. */
  lemma BlueIntensityMonotone(r: Ranges, v1: int, v2: int)
    requires 0 < r.low && v1 <= v2 < r.high
    ensures GetWaveIntensity(r, v1).value <= GetWaveIntensity(r, v2).value
  {
    BlueIntensity(r, v1);
    BlueIntensity(r, v2);
    if 0 < v1 && v2 < r.low {
      FractionMonotone(v1, v2, r.low);
    }
  }

  /** Where the quotient `a / b` falls relative to 0 and 1, for either sign
      of the divisor. */
  lemma QuotientRange(a: int, b: int)
    requires b != 0
    ensures b > 0 && a <= 0 ==> a as real / b as real <= 0.0
    ensures b > 0 && 0 <= a <= b ==> 0.0 <= a as real / b as real <= 1.0
    ensures b > 0 && a >= b ==> a as real / b as real >= 1.0
    ensures b < 0 && a >= 0 ==> a as real / b as real <= 0.0
    ensures b < 0 && b <= a <= 0 ==> 0.0 <= a as real / b as real <= 1.0
    ensures b < 0 && a <= b ==> a as real / b as real >= 1.0
  {
    if b < 0 {
      assert a as real / b as real == (-a) as real / (-b) as real;
    }
  }

  /** Dividing by the same positive number keeps the order. */
  lemma FractionMonotone(a1: int, a2: int, b: int)
    requires a1 <= a2 && 0 < b
    ensures a1 as real / b as real <= a2 as real / b as real
  {
  }

  /** The headset picture for each level. */
  function BaseImage(c: Colour): (path: string)
    ensures |path| > 6 && path[..2] == "./" && path[|path| - 4..] == ".png"
  {
    match c
    case Blue => "./vector (2).png"
    case Green => "./vector.png"
    case Yellow => "./vector (3).png"
    case Red => "./Vector (1).png"
  }

  /** The picture faded in over the base for each level. */
  function TransitionImage(c: Colour): (path: string)
    ensures path == BaseImage(Next(c))
  {
    match c
    case Blue => "./vector.png"
    case Green => "./vector (3).png"
    case Yellow => "./Vector (1).png"
    case Red => "./Vector (1).png"
  }

  /** Each level fades towards the next level's base picture; the top level,
      red, fades into itself, and it is the only level that does. The four
      base pictures are all different. */
  lemma ImageTables(c: Colour, d: Colour)
    ensures TransitionImage(c) == BaseImage(Next(c))
    ensures TransitionImage(c) == BaseImage(c) <==> c == Red
    ensures BaseImage(c) == BaseImage(d) ==> c == d
  {
  }

  /** What `getImageData` returns. */
  datatype ImageData = ImageData(baseImage: string, transitionImage: string, opacity: Number)

  /** `getImageData`: the image pair of the active wave, with the transition
      picture's opacity set to the wave intensity. */
  function GetImageData(r: Ranges, value: int): (d: ImageData)
    ensures d.baseImage == BaseImage(GetActiveWave(r, value))
    ensures d.transitionImage == TransitionImage(GetActiveWave(r, value))
    ensures d.transitionImage == BaseImage(Next(GetActiveWave(r, value)))
    ensures d.opacity == GetWaveIntensity(r, value)
    ensures d.baseImage == d.transitionImage <==> value >= r.high
    ensures d.opacity.NaN? <==> Degenerate(r, value)
    ensures !d.opacity.NaN? ==> d.opacity.Finite? && 0.0 <= d.opacity.value <= 1.0
  {
    var wave := GetActiveWave(r, value);
    ImageTables(wave, wave);
    ImageData(BaseImage(wave), TransitionImage(wave), GetWaveIntensity(r, value))
  }

  /** How many strip cells, from the left, are blue: readings 1..100 below
      `high`. */
  function BlueCells(r: Ranges): (n: nat)
    ensures n <= Bars.Cells
  {
    if r.high <= 1 then 0 else if r.high > 101 then Bars.Cells else r.high - 1
  }

  /** The range strip: cell `i` shows the wave of reading `i + 1`, which
      makes it a blue run of `BlueCells(r)` cells followed by a red run. */
  method RangeBar(r: Ranges) returns (bar: seq<Colour>)
    ensures |bar| == Bars.Cells
    ensures forall i :: 0 <= i < |bar| ==> bar[i] == GetActiveWave(r, i + 1)
    ensures forall i :: 0 <= i < |bar| ==> (bar[i] == Blue <==> i < BlueCells(r))
    ensures forall i :: 0 <= i < |bar| ==> (bar[i] == Red <==> i >= BlueCells(r))
  {
    bar := Bars.Render(v => GetActiveWave(r, v));
  }

  /** The worked examples for the default thresholds 75 and 25: a reading of
      80 is red at 0.2 with the marker centred; 10 is blue at 0.4 with the
      marker lowered; 40 is blue at full intensity with the marker raised. */
  lemma DefaultScenarios()
    ensures GetActiveWave(Default, 80) == Red
    ensures GetWaveIntensity(Default, 80) == Finite(0.2)
    ensures GetPosition(Default, 80) == Position(0, 0, 0)
    ensures GetActiveWave(Default, 10) == Blue
    ensures GetWaveIntensity(Default, 10) == Finite(0.4)
    ensures GetPosition(Default, 10) == Position(0, 16, 0)
    ensures GetActiveWave(Default, 40) == Blue
    ensures GetWaveIntensity(Default, 40) == Finite(1.0)
    ensures GetPosition(Default, 40) == Position(0, -16, 0)
  {
    RedIntensity(Default, 80);
    BlueIntensity(Default, 10);
    BlueIntensity(Default, 40);
  }
}
